=== FILE: README.md ===
# Image Shuffler — a Dafny model of the viewer's logic

Image Shuffler is a small PyQt window that shows the images of one directory
one at a time. The user can step forward and back, switch on "shuffle" so
that forward jumps by a random step, and zoom with the mouse wheel. This
project models the parts of `ImageViewer` that hold logic rather than
widget wiring:

- **Navigation** (`navigation.dfy`): the history state machine of
  `next_image` and `previous_image`. It keeps `current_index`, the log of
  visited indices `viewed_images`, and the cursor `viewed_images_index`,
  stored as a negative Python position where -1 means "at the head". The
  random draw of `random.randint(1, n - 1)` is a parameter `step`, with
  precondition `ValidDraw`: it lies in [1, n - 1] whenever that range is
  non-empty.
- **Zoom** (`zoom.dfy`): `wheelEvent`. Each wheel turn changes both sides by
  100. Zoom-in is capped at the window size less 300. Zoom-out is floored at 100.
- **Image files** (`image_files.dfy`): the extension filter of `load_images`
  and the base-name slice of `display_image`.
- **Viewer** (`viewer.dfy`): the whole window state. It covers the shuffle
  toggle, a dispatcher for the user's events and a runner over event sequences.
  It proves that every reachable state keeps the navigation invariant.
- `pyseq.dfy` holds the Python primitives the model relies on: indexing with
  negative positions, `str.endswith` and `str.rfind`. `wrappers.dfy` holds
  `Option` and `Result`.

Python exceptions are `Result.Failure` values carrying a `Fault`:

- `EmptyRandRange` is `randint(1, n - 1)` with n < 2.
- `ZeroDivision` is `% len(self.image_paths)` with no images.
- `IndexOutOfRange` is a list index out of range: into the log, or into the image list in `display_image`.

In Python these are checked in the same order as in the model. An escaping
exception ends a run of events.

Python's `%` with a positive divisor agrees with Dafny's `%`, so the model
uses Dafny's. The divisor is only ever `len(self.image_paths)` after the
zero case has been excluded.

Where a reader might expect otherwise, the model follows the code:

- With no images, `next_image` raises (`ZeroDivisionError`, or `ValueError`
  from `randint` when shuffling) instead of doing nothing.
- When `previous_image` runs past the oldest log entry, the cursor is reset
  to the head (-1) and the newest entry is shown. It is not clamped to the
  oldest entry. `Navigation.NoUnderflow` shows that this recovery can never
  fire from the start state. The log always begins with image 0, and
  `previous_image` does nothing while image 0 is shown.
- That same guard means a retreat stops at any visit to image 0, even one
  in the middle of the history. So retreating does not always replay the
  whole history in reverse.
- The zoom bounds are one-sided. A zoom-in ignores the floor of 100: in a
  window under 400 pixels it sets a side below 100, or below zero
  (`Zoom.GrowIgnoresFloor`). A zoom-out ignores the window cap, and lifts a
  side that is below 100 up to 100. The range [100, window - 300] is kept
  only once the size is inside it (`Zoom.WheelKeepsRange`).

## Model

| member | source | states |
|---|---|---|
| `PySeq.PyIndex` | image_shuffler.py:152-155 | a list index yields a value exactly for positions in [-len, len) and raises `IndexError` otherwise |
| `PySeq.RFind` | image_shuffler.py:163 | `rfind` of one character returns the highest position holding it, or -1 exactly when it does not occur |
| `ImageFiles.FilterImages` | image_shuffler.py:116-117 | the kept names are exactly the names ending in `.jpg`, `.jpeg` or `.png`, case-sensitive, with their multiplicities, as a subsequence of the listing |
| `ImageFiles.FilterConcat` | image_shuffler.py:116-117 | the filter keeps listing order: filtering a concatenation is the concatenation of the filtered parts |
| `ImageFiles.FilterIdempotent` | image_shuffler.py:116-117 | filtering an already filtered listing changes nothing |
| `ImageFiles.FilterExample` | image_shuffler.py:116-117 | a listing of `a.jpg`, `b.png`, `c.txt` yields `a.jpg`, `b.png` |
| `ImageFiles.BaseName` | image_shuffler.py:163-164 | the file name is a suffix of the path with no backslash, preceded by a backslash when the path has one, and the whole path when it has none |
| `ImageFiles.BaseNameOfJoin` | image_shuffler.py:163-164 | for a path `dir\name` whose name has no backslash, the file name shown is `name` |
| `ImageFiles.BaseNameIdempotent` | image_shuffler.py:163-164 | extracting the file name of a file name returns it unchanged |
| `Navigation.ShuffleStepMoves` | image_shuffler.py:137-142 | a random step in [1, n - 1] taken modulo n never lands on the starting index |
| `Navigation.ShuffleReachesEvery` | image_shuffler.py:138-142 | every image other than the current one is reached by some step in [1, n - 1], so together with `ShuffleStepMoves` the draw covers exactly the other images |
| `Navigation.InvInBounds` | image_shuffler.py:39-42 | in an invariant state the current index is one of the images, or 0 when there are none |
| `Navigation.Next` | image_shuffler.py:132-143 | the log only grows. At the head, a move appends exactly the new index, stays at the head and lands in [0, n): `(current + 1) % n` without shuffling, `(current + step) % n` with shuffling, which differs from the old index. Behind the head it replays the next log entry without logging. At the head it raises exactly when shuffling with n < 2 (`EmptyRandRange`, the draw comes first) or when there are no images (`ZeroDivision`); behind the head it raises `IndexOutOfRange` exactly when the replay index is outside the log |
| `Navigation.Previous` | image_shuffler.py:147-157 | nothing changes on image 0. Otherwise the cursor steps back one entry and shows that entry; when the stepped-back position is not a valid index the cursor resets to -1 and the newest entry is shown. The log never changes, and it raises `IndexOutOfRange` only with an empty log |
| `Navigation.StartInv` | image_shuffler.py:39-42 | the start state (image 0, log `[0]`, cursor -1) satisfies the navigation invariant |
| `Navigation.NextPreservesInv` | image_shuffler.py:132-143 | `next_image` keeps the invariant, and from an invariant state it raises only at the head with too few images |
| `Navigation.PreviousPreservesInv` | image_shuffler.py:147-157 | `previous_image` keeps the invariant and never raises from an invariant state |
| `Navigation.NoUnderflow` | image_shuffler.py:147-155 | from an invariant state off image 0, the decremented cursor stays inside the log, so the `IndexError` recovery never runs |
| `Navigation.PreviousThenNext` | image_shuffler.py:133-135 | `previous_image` then `next_image` restores the exact state by replaying the log, with no new draw, whenever the current image is not 0 |
| `Navigation.RoundRobin` | image_shuffler.py:136-143 | with shuffling off, k moves from the start visit 0, 1, 2, ... modulo n, and the log holds every visit |
| `Zoom.GrowSide` | image_shuffler.py:181-182 | a zoom-in side is at most the cap and at most 100 more than before, and equals one of them |
| `Zoom.ShrinkSide` | image_shuffler.py:184-185 | a zoom-out side is at least 100 and at least 100 less than before, and equals one of them |
| `Zoom.Wheel` | image_shuffler.py:174-185 | a positive delta makes each side the smaller of its old value plus 100 and the window size less 300. Zero or negative makes each side the larger of its old value less 100 and 100, so both are at least 100 and a side that was at least 100 never grows |
| `Zoom.WheelKeepsRange` | image_shuffler.py:174-185 | a size within [100, window - 300] on both axes stays there after any wheel turn |
| `Zoom.GrowThenShrink` | image_shuffler.py:180-185 | an uncapped zoom-in followed by a zoom-out returns to the original side |
| `Zoom.ShrinkThenGrow` | image_shuffler.py:180-185 | an unfloored zoom-out followed by a zoom-in returns to the original side |
| `Zoom.GrowIgnoresFloor` | image_shuffler.py:175-182 | with a cap below 100, a zoom-in that reaches the cap leaves the side below 100 |
| `Zoom.FirstZoomInOnDefaultWindow` | image_shuffler.py:175-182 | on the default 1280 x 720 window the first zoom-in turns 800 x 600 into 900 x 420 |
| `Viewer.ToggleShuffle` | image_shuffler.py:119-120 | the shuffle flag flips and every other part of the state stays the same |
| `Viewer.ToggleTwice` | image_shuffler.py:120 | toggling shuffle twice restores the state |
| `Viewer.Display` | image_shuffler.py:159-161 | indexing the image list with the current index succeeds exactly when the list is empty or the index is a valid Python position, and raises `IndexOutOfRange` otherwise, leaving the state as it is |
| `Viewer.Handle` | image_shuffler.py:119-191 | each event runs its own handler: next and previous move the navigation state exactly as those handlers do, shuffle flips the flag, the wheel applies the zoom, a resize stores the new window size. Next, the wheel, and previous off image 0 then run `display_image`, which raises `IndexOutOfRange` when the current index is outside a non-empty image list. A handler raises exactly when its navigation step or that display step raises. Every other part of the state, and the image list, stays the same. From an invariant state only `next_image` can raise |
| `Viewer.InitInv` | image_shuffler.py:36-42 | the state after `__init__` satisfies the navigation invariant for any image list |
| `Viewer.RunKeepsInv` | image_shuffler.py:132-157 | every state reached by a sequence of events keeps the invariant and the image list, and with two or more images no event raises |
| `Viewer.Title` | image_shuffler.py:159-166 | with images, the title is the fixed prefix followed by the text after the last backslash of the current image's path, or the whole path when it has no backslash; with none, the title is not changed |
| `Viewer.ReachableTitle` | image_shuffler.py:159-161 | in every reachable state with images, the current index is a valid non-negative position in the list, so the title is set exactly when there are images |

## Left out

- Qt widgets, layouts, buttons, icons and keyboard shortcuts
  (image_shuffler.py:46-110): UI wiring with no logic. The shortcuts and
  buttons become the `Viewer.Event` cases.
- Choosing the shuffle icon by comparing rendered pixmaps
  (image_shuffler.py:122-130): it depends on Qt images. Only the flag flip is
  modelled.
- `QPixmap` loading, aspect-ratio scaling and `setWindowTitle`
  (image_shuffler.py:166-172): image codecs and a foreign library. The title
  string is modelled, not the drawing.
- `os.listdir` and `os.path.join` (image_shuffler.py:116): filesystem I/O and
  platform path rules. The filter works on a given listing. The viewer is
  given the joined paths. `ImageFiles.BaseNameOfJoin` covers backslash-joined
  paths. On a platform whose separator is `/`, the title shows the whole path
  when neither the directory nor the file name contains a backslash, and the
  text after the last backslash otherwise.
- Reading and writing `config.ini` (image_shuffler.py:18-26, 193-203): file
  I/O and library parsing. The window size is an input to `Viewer.Init`.
- `random.randint`: its result is the `step` parameter under `ValidDraw`.
- `on_resize` and the `__main__` block: event plumbing only. The resize
  becomes the `Resized` event.

=== FILE: image_files.dfy ===
/** The file-name logic of the viewer: which directory entries count as
    images (`load_images`), and the base name shown in the window title
    (`display_image`). */
module ImageFiles {
  import opened PySeq

  const JpgSuffix := ".jpg"
  const JpegSuffix := ".jpeg"
  const PngSuffix := ".png"

  /** `file.endswith(('.jpg', '.jpeg', '.png'))`, case-sensitive. */
  predicate IsImageName(name: string) {
    EndsWith(name, JpgSuffix) || EndsWith(name, JpegSuffix) || EndsWith(name, PngSuffix)
  }

  /** `a` can be obtained from `b` by deleting elements. */
  ghost predicate IsSubsequence<T>(a: seq<T>, b: seq<T>)
    decreases |b|
  {
    || |a| == 0
    || (|b| > 0 && ((a[0] == b[0] && IsSubsequence(a[1..], b[1..])) || IsSubsequence(a, b[1..])))
  }

  /** The list comprehension of `load_images`, over the directory listing. */
  function FilterImages(names: seq<string>): (r: seq<string>)
    ensures forall i :: 0 <= i < |r| ==> IsImageName(r[i])
    ensures forall x :: x in r <==> x in names && IsImageName(x)
    ensures forall x :: multiset(r)[x] == if IsImageName(x) then multiset(names)[x] else 0
    ensures IsSubsequence(r, names)
  {
    if |names| == 0 then []
    else
      var rest := FilterImages(names[1..]);
      assert names == [names[0]] + names[1..];
      if IsImageName(names[0]) then
        assert ([names[0]] + rest)[1..] == rest;
        [names[0]] + rest
      else
        assert |rest| > 0 ==> rest[0] != names[0];
        rest
  }

  /** The filter keeps the listing order: filtering two listings one after
      the other is filtering their concatenation. */
  lemma {:induction false} FilterConcat(a: seq<string>, b: seq<string>)
    ensures FilterImages(a + b) == FilterImages(a) + FilterImages(b)
  {
    if |a| > 0 {
      assert (a + b)[1..] == a[1..] + b;
      FilterConcat(a[1..], b);
    } else {
      assert a + b == b;
    }
  }

  /** Filtering a filtered listing changes nothing. */
  lemma {:induction false} FilterIdempotent(names: seq<string>)
    ensures FilterImages(FilterImages(names)) == FilterImages(names)
  {
    if |names| > 0 {
      FilterIdempotent(names[1..]);
      var rest := FilterImages(names[1..]);
      if IsImageName(names[0]) {
        assert ([names[0]] + rest)[1..] == rest;
      }
    }
  }

  /** A directory holding `a.jpg`, `b.png` and `c.txt` yields two images. */
  lemma FilterExample()
    ensures FilterImages(["a.jpg", "b.png", "c.txt"]) == ["a.jpg", "b.png"]
  {
    assert IsImageName("a.jpg");
    assert IsImageName("b.png");
    assert !EndsWith("c.txt", JpegSuffix);
  }

  const Backslash := '\\'

  /** `path[(path.rfind("\\") + 1):]`: the text after the last backslash, or
      the whole path when it has none. */
  function BaseName(path: string): (r: string)
    ensures |r| <= |path| && r == path[|path| - |r|..]
    ensures Backslash !in r
    ensures Backslash !in path ==> r == path
    ensures Backslash in path ==> |r| < |path| && path[|path| - |r| - 1] == Backslash
  {
    var endIndex := RFind(path, Backslash);
    path[endIndex + 1..]
  }

  /** The base name of a name joined to a directory with a backslash is the
      name itself, whatever the directory. */
  lemma BaseNameOfJoin(dir: string, name: string)
    requires Backslash !in name
    ensures BaseName(dir + [Backslash] + name) == name
  {
    var path := dir + [Backslash] + name;
    assert path[|dir|] == Backslash;
    assert path[|dir| + 1..] == name;
    assert forall j :: |dir| < j < |path| ==> path[j] == name[j - |dir| - 1];
    assert RFind(path, Backslash) == |dir|;
  }

  /** Taking the base name twice is taking it once. */
  lemma BaseNameIdempotent(path: string)
    ensures BaseName(BaseName(path)) == BaseName(path)
  {
  }
}

=== FILE: navigation.dfy ===
/** The viewer's navigation history: `current_index`, the log of visited
    indices `viewed_images`, and the cursor `viewed_images_index`, a negative
    Python position into the log where -1 means "at the head". */
module Navigation {
  import opened Wrappers
  import opened PySeq

  /** The exceptions `next_image` and `previous_image` can raise. */
  datatype Fault =
    | EmptyRandRange   // random.randint(1, n - 1) with n < 2 raises ValueError
    | ZeroDivision     // `% len(self.image_paths)` with no images
    | IndexOutOfRange  // a list index out of range

  datatype Nav = Nav(current: int, viewed: seq<int>, cursor: int)

  /** The state `__init__` sets up: image 0, a log holding it, cursor at head. */
  const Start := Nav(0, [0], -1)

  predicate AtHead(nav: Nav) {
    nav.cursor == -1
  }

  /** What `random.randint(1, n - 1)` can return: a step in [1, n - 1]
      whenever that range is non-empty. */
  predicate ValidDraw(n: nat, step: int) {
    n >= 2 ==> 1 <= step <= n - 1
  }

  /** An index `current_index` may hold over `n` images: one of the images,
      or 0 when there are none. */
  predicate InBounds(v: int, n: nat) {
    v == 0 || 0 <= v < n
  }

  /** The invariant the viewer keeps: the log is never empty and starts with
      image 0, the cursor is a valid negative position into it, the current
      index is the logged entry under the cursor, and every entry is in range. */
  ghost predicate Inv(nav: Nav, n: nat) {
    && |nav.viewed| >= 1
    && nav.viewed[0] == 0
    && -|nav.viewed| <= nav.cursor <= -1
    && nav.current == At(nav.viewed, nav.cursor)
    && forall i :: 0 <= i < |nav.viewed| ==> InBounds(nav.viewed[i], n)
  }

  /** `x % n` is the remainder of any decomposition `x == q * n + r` with
      `0 <= r < n`. */
  lemma ModUnique(x: int, n: int, q: int, r: int)
    requires n >= 1 && 0 <= r < n
    requires x == q * n + r
    ensures x % n == r
  {
    var q', r' := x / n, x % n;
    assert (q - q') * n == r' - r;
    MulBetween(q - q', n);
  }

  /** The only multiple of `n` strictly between `-n` and `n` is 0. */
  lemma MulBetween(d: int, n: int)
    requires n >= 1
    ensures -n < d * n < n ==> d == 0
  {
    if d >= 1 {
      MulAtLeast(d, n);
    } else if d <= -1 {
      MulAtLeast(-d, n);
    }
  }

  lemma MulAtLeast(d: int, n: int)
    requires d >= 1 && n >= 1
    ensures d * n >= n
  {
  }

  /** A random step in [1, n - 1] never lands on the index it started from. */
  lemma ShuffleStepMoves(c: int, step: int, n: int)
    requires 1 <= step <= n - 1
    ensures (c + step) % n != c
  {
    if 0 <= c < n {
      var q := (c + step) / n;
      var r := (c + step) % n;
      assert c + step == q * n + r;
      if q <= 0 {
        assert q * n <= 0;
      } else {
        assert q * n >= n;
      }
    }
  }

  /** Every image other than the current one is reached by some step in
      [1, n - 1]: with `ShuffleStepMoves`, the shuffled draw maps exactly onto
      the other images. */
  lemma ShuffleReachesEvery(c: int, t: int, n: int)
    requires 0 <= c < n && 0 <= t < n && t != c
    ensures exists step :: 1 <= step <= n - 1 && StepLandsOn(c, step, n, t)
  {
    if t > c {
      var step := t - c;
      ModUnique(c + step, n, 0, t);
      assert StepLandsOn(c, step, n, t);
    } else {
      var step := t - c + n;
      assert c + step == 1 * n + t;
      ModUnique(c + step, n, 1, t);
      assert StepLandsOn(c, step, n, t);
    }
  }

  /** A move of `step` from `c` over `n` images lands on `t`. */
  predicate StepLandsOn(c: int, step: int, n: int, t: int) {
    n >= 1 && (c + step) % n == t
  }

  /** `next_image`. Behind the head it replays the next logged index; at the
      head it makes a fresh move of `step` (shuffling) or 1, modulo the number
      of images `n`, and logs the result. */
  function Next(nav: Nav, n: nat, shuffling: bool, step: int): (r: Result<Nav, Fault>)
    requires ValidDraw(n, step)
    // the log only grows, by at most one entry
    ensures r.Success? ==> nav.viewed <= r.value.viewed
    ensures r.Success? ==> |r.value.viewed| <= |nav.viewed| + 1
    // a fresh move appends exactly the new index, stays at the head and in range
    ensures AtHead(nav) && r.Success? ==>
      && r.value.viewed == nav.viewed + [r.value.current]
      && AtHead(r.value)
      && 0 <= r.value.current < n
    ensures AtHead(nav) && r.Success? && !shuffling ==>
      r.value.current == (nav.current + 1) % n
    ensures AtHead(nav) && r.Success? && shuffling ==>
      && r.value.current == (nav.current + step) % n
      && r.value.current != nav.current
    // a replay logs nothing and moves the cursor one step towards the head
    ensures !AtHead(nav) && r.Success? ==>
      && r.value.viewed == nav.viewed
      && r.value.cursor == nav.cursor + 1
      && PyIndex(nav.viewed, r.value.cursor) == Some(r.value.current)
    // the exceptions
    ensures AtHead(nav) ==>
      (r.Failure? <==> (if shuffling then n < 2 else n == 0))
    ensures !AtHead(nav) ==>
      (r.Failure? <==> !(-|nav.viewed| <= nav.cursor + 1 < |nav.viewed|))
    // which exception: the draw is made before the modulo
    ensures AtHead(nav) && shuffling && n < 2 ==> r == Failure(EmptyRandRange)
    ensures AtHead(nav) && !shuffling && n == 0 ==> r == Failure(ZeroDivision)
    ensures !AtHead(nav) && r.Failure? ==> r == Failure(IndexOutOfRange)
  {
    if nav.cursor != -1 then
      match PyIndex(nav.viewed, nav.cursor + 1)
      case None => Failure(IndexOutOfRange)
      case Some(c) => Success(Nav(c, nav.viewed, nav.cursor + 1))
    else if shuffling && n < 2 then
      Failure(EmptyRandRange)
    else if n == 0 then
      Failure(ZeroDivision)
    else
      var increase := if shuffling then step else 1;
      // Python's % with a positive divisor agrees with Dafny's
      var c := (nav.current + increase) % n;
      assert shuffling ==> c != nav.current by {
        if shuffling { ShuffleStepMoves(nav.current, step, n); }
      }
      Success(Nav(c, nav.viewed + [c], -1))
  }

  /** `previous_image`. Nothing happens on image 0; otherwise the cursor steps
      back one entry, and if it runs past the oldest entry (`IndexError`) it
      is reset to the head and the newest entry is shown. */
  function Previous(nav: Nav): (r: Result<Nav, Fault>)
    ensures nav.current == 0 ==> r == Success(nav)
    ensures r.Success? ==> r.value.viewed == nav.viewed
    // stepping back inside the log
    ensures nav.current != 0 && -|nav.viewed| <= nav.cursor - 1 < |nav.viewed| ==>
      && r.Success?
      && r.value.cursor == nav.cursor - 1
      && PyIndex(nav.viewed, r.value.cursor) == Some(r.value.current)
    // running past the oldest entry
    ensures nav.current != 0 && !(-|nav.viewed| <= nav.cursor - 1 < |nav.viewed|) && |nav.viewed| > 0 ==>
      r == Success(Nav(nav.viewed[|nav.viewed| - 1], nav.viewed, -1))
    ensures r.Failure? <==> nav.current != 0 && |nav.viewed| == 0
    ensures r.Failure? ==> r == Failure(IndexOutOfRange)
  {
    if nav.current == 0 then
      Success(nav)
    else
      var back := nav.cursor - 1;
      match PyIndex(nav.viewed, back)
      case Some(c) => Success(Nav(c, nav.viewed, back))
      case None =>
        match PyIndex(nav.viewed, -1)
        case Some(c) => Success(Nav(c, nav.viewed, -1))
        case None => Failure(IndexOutOfRange)
  }

  /** In an invariant state the current index is one of the images, or 0
      when there are none. */
  lemma InvInBounds(nav: Nav, n: nat)
    ensures Inv(nav, n) ==> InBounds(nav.current, n)
  {
    if Inv(nav, n) {
      assert nav.current == nav.viewed[|nav.viewed| + nav.cursor];
    }
  }

  /** The start state satisfies the invariant over any number of images. */
  lemma StartInv(n: nat)
    ensures Inv(Start, n)
  {
  }

  /** `next_image` keeps the invariant and, from an invariant state, raises only
      at the head: with shuffling on and fewer than two images, or with no images. */
  lemma NextPreservesInv(nav: Nav, n: nat, shuffling: bool, step: int)
    requires Inv(nav, n)
    requires ValidDraw(n, step)
    ensures Next(nav, n, shuffling, step).Failure? <==>
      AtHead(nav) && (if shuffling then n < 2 else n == 0)
    ensures Next(nav, n, shuffling, step).Success? ==>
      Inv(Next(nav, n, shuffling, step).value, n)
  {
    var r := Next(nav, n, shuffling, step);
    if r.Success? {
      var m := r.value;
      if AtHead(nav) {
        forall i | 0 <= i < |m.viewed|
          ensures InBounds(m.viewed[i], n)
        {
          if i < |nav.viewed| {
            assert m.viewed[i] == nav.viewed[i];
          }
        }
      } else {
        PyIndexNegative(nav.viewed, nav.cursor + 1);
      }
    }
  }

  /** `previous_image` keeps the invariant and never raises from an invariant state. */
  lemma PreviousPreservesInv(nav: Nav, n: nat)
    requires Inv(nav, n)
    ensures Previous(nav).Success?
    ensures Inv(Previous(nav).value, n)
  {
    var m := Previous(nav).value;
    if nav.current != 0 {
      if -|nav.viewed| <= nav.cursor - 1 {
        PyIndexNegative(nav.viewed, nav.cursor - 1);
      } else {
        PyIndexNegative(nav.viewed, -1);
      }
    }
  }

  /** Because the log always starts with image 0 and the cursor never moves
      while image 0 is shown, stepping back from an invariant state never runs
      past the oldest entry: the `IndexError` recovery never fires. */
  lemma {:induction false} NoUnderflow(nav: Nav, n: nat)
    requires Inv(nav, n)
    requires nav.current != 0
    ensures nav.cursor - 1 >= -|nav.viewed|
    ensures Previous(nav).value.cursor == nav.cursor - 1
  {
    PyIndexNegative(nav.viewed, nav.cursor - 1);
  }

  /** Going back and then forward again returns to the same state, replaying
      the log rather than drawing a new index. */
  lemma PreviousThenNext(nav: Nav, n: nat, shuffling: bool, step: int)
    requires Inv(nav, n)
    requires nav.current != 0
    requires ValidDraw(n, step)
    ensures Previous(nav).Success?
    ensures Next(Previous(nav).value, n, shuffling, step) == Success(nav)
  {
    NoUnderflow(nav, n);
    var m := Previous(nav).value;
    assert !AtHead(m);
    PyIndexNegative(nav.viewed, nav.cursor);
  }

  /** `next_image` applied `k` times with shuffling off. */
  function AdvanceSequential(nav: Nav, n: nat, k: nat): Result<Nav, Fault>
  {
    if k == 0 then Success(nav)
    else
      match AdvanceSequential(nav, n, k - 1)
      case Failure(e) => Failure(e)
      case Success(m) => Next(m, n, false, 1)
  }

  /** The log of `k` sequential moves from the start: 0, 1, ..., k, modulo n. */
  function RoundRobinLog(n: nat, k: nat): (log: seq<int>)
    requires n >= 1
  {
    seq(k + 1, i => i % n)
  }

  lemma ModSucc(a: nat, n: nat)
    requires n >= 1
    ensures (a % n + 1) % n == (a + 1) % n
  {
    var q, r := a / n, a % n;
    if r + 1 < n {
      ModUnique(a + 1, n, q, r + 1);
      ModUnique(r + 1, n, 0, r + 1);
    } else {
      ModUnique(a + 1, n, q + 1, 0);
      ModUnique(r + 1, n, 1, 0);
    }
  }

  /** With shuffling off, repeated `next_image` from the start visits the
      images round-robin, 0, 1, ..., n - 1, 0, ..., and logs every visit. */
  lemma {:induction false} RoundRobin(n: nat, k: nat)
    requires n >= 1
    ensures AdvanceSequential(Start, n, k) == Success(Nav(k % n, RoundRobinLog(n, k), -1))
  {
    if k > 0 {
      RoundRobin(n, k - 1);
      ModSucc(k - 1, n);
      var prev := RoundRobinLog(n, k - 1);
      assert RoundRobinLog(n, k) == prev + [k % n];
    } else {
      assert RoundRobinLog(n, 0) == [0];
    }
  }
}

=== FILE: pyseq.dfy ===
/** Python sequence and string primitives used by the viewer: indexing with
    negative positions, `str.endswith` and `str.rfind`. */
module PySeq {
  import opened Wrappers

  /** `s[i]` in Python: non-negative positions count from the front, negative
      positions from the back; anything else raises `IndexError` (None). */
  function PyIndex<T>(s: seq<T>, i: int): (r: Option<T>)
    ensures r.Some? <==> -|s| <= i < |s|
  {
    if 0 <= i < |s| then Some(s[i])
    else if -|s| <= i < 0 then Some(s[|s| + i])
    else None
  }

  /** The element at a negative Python position, -1 being the last. */
  function At<T>(s: seq<T>, i: int): T
    requires -|s| <= i <= -1
  {
    s[|s| + i]
  }

  /** A negative position and its non-negative spelling name the same element,
      and a negative position reads the element `At` names. */
  lemma PyIndexNegative<T>(s: seq<T>, i: int)
    requires -|s| <= i <= -1
    ensures PyIndex(s, i) == Some(At(s, i)) == PyIndex(s, |s| + i)
  {
  }

  /** `s.endswith(suffix)`. */
  predicate EndsWith(s: string, suffix: string) {
    |suffix| <= |s| && s[|s| - |suffix|..] == suffix
  }

  /** `s.rfind(c)` for a one-character needle: the highest position holding
      `c`, or -1 when `c` does not occur. */
  function RFind(s: string, c: char): (r: int)
    ensures -1 <= r < |s|
    ensures r >= 0 ==> s[r] == c
    ensures forall j :: r < j < |s| ==> s[j] != c
    ensures r == -1 <==> c !in s
  {
    if |s| == 0 then -1
    else if s[|s| - 1] == c then |s| - 1
    else RFind(s[..|s| - 1], c)
  }
}

=== FILE: viewer.dfy ===
/** The `ImageViewer` window as one immutable state: the image list, the
    navigation history, the shuffle flag, the displayed image size and the
    window size, driven by the handlers the window connects to its buttons,
    shortcuts, wheel and resize events. */
module Viewer {
  import opened Wrappers
  import opened Navigation
  import opened Zoom
  import opened ImageFiles
  import PySeq

  datatype Viewer = Viewer(
    paths: seq<string>,
    nav: Nav,
    shuffling: bool,
    image: Size,
    window: Size)

  /** The user inputs the window reacts to. `step` is the value the random
      draw would return if `next_image` makes one. */
  datatype Event =
    | NextPressed(step: int)
    | PreviousPressed
    | ShufflePressed
    | WheelTurned(delta: int)
    | Resized(newWindow: Size)

  /** The state after `__init__` with `paths` already loaded and the window
      size read from the settings. */
  function Init(paths: seq<string>, window: Size): Viewer {
    Viewer(paths, Start, false, InitialImage, window)
  }

  /** Every random draw in `events` lies in [1, n - 1] when that range is non-empty. */
  predicate ValidDraws(n: nat, events: seq<Event>) {
    forall i :: 0 <= i < |events| ==> (events[i].NextPressed? ==> ValidDraw(n, events[i].step))
  }

  /** `shuffle_images`: flips the shuffle flag and nothing else. */
  function ToggleShuffle(v: Viewer): (r: Viewer)
    ensures r.shuffling != v.shuffling
    ensures r.(shuffling := v.shuffling) == v
  {
    v.(shuffling := !v.shuffling)
  }

  /** Pressing shuffle twice restores the state. */
  lemma ToggleTwice(v: Viewer)
    ensures ToggleShuffle(ToggleShuffle(v)) == v
  {
  }

  /** One handler run. Navigation acts on `nav` only, the wheel on `image`
      only, a resize on `window` only; the image list never changes. */
  function Handle(v: Viewer, e: Event): (r: Result<Viewer, Fault>)
    requires e.NextPressed? ==> ValidDraw(|v.paths|, e.step)
    ensures r.Success? ==> r.value.paths == v.paths
    ensures r.Success? && !e.NextPressed? && !e.PreviousPressed? ==> r.value.nav == v.nav
    ensures r.Success? && !e.WheelTurned? ==> r.value.image == v.image
    ensures r.Success? && !e.ShufflePressed? ==> r.value.shuffling == v.shuffling
    ensures r.Success? && !e.Resized? ==> r.value.window == v.window
    // what each handler does
    // next and the wheel end in `display_image`, as does previous off image 0
    ensures e.NextPressed? ==>
      var n := Next(v.nav, |v.paths|, v.shuffling, e.step);
      && (r.Success? <==> n.Success? && Displayable(v.paths, n.value))
      && (r.Success? ==> r.value.nav == n.value)
    ensures e.PreviousPressed? ==>
      var p := Previous(v.nav);
      && (r.Success? <==> p.Success? && (v.nav.current != 0 ==> Displayable(v.paths, p.value)))
      && (r.Success? ==> r.value.nav == p.value)
    ensures e.ShufflePressed? ==> r.Success? && r.value.shuffling != v.shuffling
    ensures e.WheelTurned? ==>
      && (r.Success? <==> Displayable(v.paths, v.nav))
      && (r.Success? ==> r.value.image == Wheel(v.image, v.window, e.delta))
    ensures e.Resized? ==> r.Success? && r.value.window == e.newWindow
    ensures r.Failure? ==> r.error.IndexOutOfRange? || e.NextPressed?
    ensures e.NextPressed? && Next(v.nav, |v.paths|, v.shuffling, e.step).Failure? ==>
      r == Failure(Next(v.nav, |v.paths|, v.shuffling, e.step).error)
    ensures e.NextPressed? && Next(v.nav, |v.paths|, v.shuffling, e.step).Success? && r.Failure? ==>
      r.error == IndexOutOfRange
    ensures !e.NextPressed? && Inv(v.nav, |v.paths|) ==> r.Success?
  {
    InvInBounds(v.nav, |v.paths|);
    match e
    case NextPressed(step) =>
      (match Next(v.nav, |v.paths|, v.shuffling, step)
       case Failure(f) => Failure(f)
       case Success(nav) => Display(v.(nav := nav)))
    case PreviousPressed =>
      (match Previous(v.nav)
       case Failure(f) => Failure(f)
       case Success(nav) =>
         if v.nav.current != 0 then Display(v.(nav := nav)) else Success(v.(nav := nav)))
    case ShufflePressed => Success(ToggleShuffle(v))
    case WheelTurned(delta) => Display(v.(image := Wheel(v.image, v.window, delta)))
    case Resized(w) => Success(v.(window := w))
  }

  /** `self.image_paths[self.current_index]` in `display_image` succeeds: there
      are no images (nothing is indexed) or the index is a valid Python position. */
  predicate Displayable(paths: seq<string>, nav: Nav) {
    |paths| == 0 || -|paths| <= nav.current < |paths|
  }

  /** The `IndexError` `display_image` raises for an index outside the list;
      the state is otherwise left as it is. */
  function Display(v: Viewer): (r: Result<Viewer, Fault>)
    ensures r.Success? <==> Displayable(v.paths, v.nav)
    ensures r.Success? ==> r.value == v
    ensures r.Failure? ==> r.error == IndexOutOfRange
  {
    if |v.paths| > 0 && PySeq.PyIndex(v.paths, v.nav.current).None? then
      Failure(IndexOutOfRange)
    else
      Success(v)
  }

  /** Handles `events` in order; an escaping exception ends the run. */
  function Run(v: Viewer, events: seq<Event>): Result<Viewer, Fault>
    requires ValidDraws(|v.paths|, events)
    decreases |events|
  {
    if |events| == 0 then Success(v)
    else
      match Handle(v, events[0])
      case Failure(f) => Failure(f)
      case Success(v') => Run(v', events[1..])
  }

  /** Every state the window reaches from its start keeps the navigation
      invariant and its image list; and with at least two images no handler
      ever raises. */
  lemma {:induction false} RunKeepsInv(v: Viewer, events: seq<Event>)
    requires Inv(v.nav, |v.paths|)
    requires ValidDraws(|v.paths|, events)
    ensures Run(v, events).Success? ==> Inv(Run(v, events).value.nav, |v.paths|)
    ensures Run(v, events).Success? ==> Run(v, events).value.paths == v.paths
    ensures |v.paths| >= 2 ==> Run(v, events).Success?
    decreases |events|
  {
    if |events| > 0 {
      var e := events[0];
      if e.NextPressed? {
        NextPreservesInv(v.nav, |v.paths|, v.shuffling, e.step);
        var n := Next(v.nav, |v.paths|, v.shuffling, e.step);
        if n.Success? {
          InvInBounds(n.value, |v.paths|);
        }
      } else if e.PreviousPressed? {
        PreviousPreservesInv(v.nav, |v.paths|);
      }
      var r := Handle(v, e);
      if r.Success? {
        assert ValidDraws(|v.paths|, events[1..]) by {
          forall i | 0 <= i < |events[1..]|
            ensures events[1..][i].NextPressed? ==> ValidDraw(|v.paths|, events[1..][i].step)
          {
            assert events[1..][i] == events[i + 1];
          }
        }
        RunKeepsInv(r.value, events[1..]);
      }
    }
  }

  lemma InitInv(paths: seq<string>, window: Size)
    ensures Inv(Init(paths, window).nav, |paths|)
  {
    StartInv(|paths|);
  }

  const TitlePrefix := "Image Shuffler - "

  /** The window title `display_image` sets: the prefix and the base name of
      the current image's path; no title change when there are no images. */
  function Title(v: Viewer): (r: Option<string>)
    requires |v.paths| > 0 ==> 0 <= v.nav.current < |v.paths|
    ensures r.None? <==> |v.paths| == 0
    ensures r.Some? ==>
      && |TitlePrefix| <= |r.value|
      && r.value[..|TitlePrefix|] == TitlePrefix
      && var path, name := v.paths[v.nav.current], r.value[|TitlePrefix|..];
         && |name| <= |path|
         && name == path[|path| - |name|..]
         && Backslash !in name
         && (Backslash !in path ==> name == path)
         && (Backslash in path ==> |name| < |path| && path[|path| - |name| - 1] == Backslash)
  {
    if |v.paths| == 0 then None
    else
      var name := BaseName(v.paths[v.nav.current]);
      assert (TitlePrefix + name)[|TitlePrefix|..] == name;
      Some(TitlePrefix + name)
  }

  /** In every reachable state the current index names an image, so
      `display_image` can index the list and sets a title whenever there are
      images. */
  lemma {:induction false} ReachableTitle(paths: seq<string>, window: Size, events: seq<Event>)
    requires ValidDraws(|paths|, events)
    requires Run(Init(paths, window), events).Success?
    ensures var v := Run(Init(paths, window), events).value;
      && (|v.paths| > 0 ==> 0 <= v.nav.current < |v.paths|)
      && (Title(v).Some? <==> |paths| > 0)
  {
    InitInv(paths, window);
    RunKeepsInv(Init(paths, window), events);
    var v := Run(Init(paths, window), events).value;
    var log := v.nav.viewed;
    assert v.nav.current == log[|log| + v.nav.cursor];
  }
}

=== FILE: wrappers.dfy ===
/** Failure-carrying results used to model Python exceptions. */
module Wrappers {

  datatype Option<+T> = None | Some(value: T)

  /** `Failure` stands for an exception that escapes the handler. */
  datatype Result<+R, +E> = Success(value: R) | Failure(error: E)
}

=== FILE: zoom.dfy ===
/** `wheelEvent`: the mouse wheel grows or shrinks the displayed image size
    by 100 on each axis. Growing is capped at the window size less 300;
    shrinking is floored at 100. Each bound applies to one direction only. */
module Zoom {

  datatype Size = Size(width: int, height: int)

  const ZoomStep := 100
  const MinImageSide := 100
  const WindowMargin := 300

  /** The image size `__init__` starts with. */
  const InitialImage := Size(800, 600)

  /** One axis of a zoom-in: `min(side + 100, limit)`. */
  function GrowSide(side: int, limit: int): (r: int)
    ensures r <= limit && r <= side + ZoomStep
    ensures r == limit || r == side + ZoomStep
  {
    if side + ZoomStep <= limit then side + ZoomStep else limit
  }

  /** One axis of a zoom-out: `max(side - 100, 100)`. */
  function ShrinkSide(side: int): (r: int)
    ensures r >= MinImageSide && r >= side - ZoomStep
    ensures r == MinImageSide || r == side - ZoomStep
  {
    if side - ZoomStep >= MinImageSide then side - ZoomStep else MinImageSide
  }

  /** `wheelEvent` for a wheel turn of `delta`: a positive delta zooms in,
      zero or a negative delta zooms out. */
  function Wheel(image: Size, window: Size, delta: int): (r: Size)
    ensures delta > 0 ==>
      && r.width <= window.width - WindowMargin
      && r.height <= window.height - WindowMargin
      && r.width <= image.width + ZoomStep
      && r.height <= image.height + ZoomStep
      && (r.width == image.width + ZoomStep || r.width == window.width - WindowMargin)
      && (r.height == image.height + ZoomStep || r.height == window.height - WindowMargin)
    ensures delta <= 0 ==>
      && r.width >= image.width - ZoomStep
      && r.height >= image.height - ZoomStep
      && (r.width == image.width - ZoomStep || r.width == MinImageSide)
      && (r.height == image.height - ZoomStep || r.height == MinImageSide)
    ensures delta <= 0 ==>
      && r.width >= MinImageSide
      && r.height >= MinImageSide
      && (image.width >= MinImageSide ==> r.width <= image.width)
      && (image.height >= MinImageSide ==> r.height <= image.height)
  {
    if delta > 0 then
      Size(GrowSide(image.width, window.width - WindowMargin),
           GrowSide(image.height, window.height - WindowMargin))
    else
      Size(ShrinkSide(image.width), ShrinkSide(image.height))
  }

  /** Sizes inside the range the two bounds describe together. */
  predicate InZoomRange(image: Size, window: Size) {
    && MinImageSide <= image.width <= window.width - WindowMargin
    && MinImageSide <= image.height <= window.height - WindowMargin
  }

  /** Once the image size lies within [100, window - 300] on both axes, every
      wheel turn keeps it there. */
  lemma WheelKeepsRange(image: Size, window: Size, delta: int)
    requires InZoomRange(image, window)
    ensures InZoomRange(Wheel(image, window, delta), window)
  {
  }

  /** Zooming in then out undoes the zoom-in when it was not capped. */
  lemma GrowThenShrink(side: int, limit: int)
    requires MinImageSide <= side && side + ZoomStep <= limit
    ensures ShrinkSide(GrowSide(side, limit)) == side
  {
  }

  /** Zooming out then in undoes the zoom-out when it was not floored. */
  lemma ShrinkThenGrow(side: int, limit: int)
    requires MinImageSide + ZoomStep <= side <= limit
    ensures GrowSide(ShrinkSide(side), limit) == side
  {
  }

  /** The cap of a zoom-in ignores the floor: in a window narrower than 400
      a zoom-in sets the side below 100, even below zero. */
  lemma GrowIgnoresFloor(side: int, limit: int)
    requires limit < MinImageSide && side + ZoomStep > limit
    ensures GrowSide(side, limit) < MinImageSide
  {
  }

  /** The default window (1280 x 720) leaves room for 420 pixels of height,
      so the initial 600 is above the zoom-in cap: the first zoom-in shrinks
      the height to 420 while growing the width to 900. */
  lemma FirstZoomInOnDefaultWindow()
    ensures Wheel(InitialImage, Size(1280, 720), 120) == Size(900, 420)
  {
  }
}
